=== FILE: README.md ===
# Forum core in Dafny

A model of the logic inside `main.go` of a small Go/SQLite web forum. Users sign up and log in. A session cookie carries their identity. They write posts, comment on them, and like or dislike them. Two pages list every post with its comments.

The model has four parts, one module each:

- `Grouping` (grouping.dfy) is the loop shared by `welcomeHandler` and `readOnly`.
  - The loop turns the flat `posts LEFT JOIN comments` result into posts with nested comments.
  - `GroupRows` is the loop as written: a left fold over the rows whose state is the finished posts plus the current post. Post id 0 marks "no current post".
  - `Reference` is an independent definition of the same result. It cuts the rows into maximal runs of equal post id and makes one post per run whose id is not 0.
  - `GroupRowsIsReference` proves the two agree on every input.
- `Session` (session.dfy) covers the session cookie.
  - The cookie value is the username and the email joined by the separator `|` (a vertical bar).
  - Go's `strings.Split` is modelled, and proved inverse to `Join`.
  - There are two readers. One indexes parts 0 and 1 unchecked, as `welcomeHandler` does. The other insists on exactly two parts.
- `Store` (store.dfy) is the database as a state machine.
  - A `Forum` holds users, posts, comments and category associations, plus counters for AUTOINCREMENT ids starting at 1.
  - Each handler is a pure transition: `Signup`, `Login`, `CreatePost`, `AddComment`, `Like` and `Dislike`. Its contract says what changes and that nothing else does.
  - `Valid` is the invariant every reachable state keeps: emails are unique, ids are positive, ids ascend and ids stay below the next id.
- `Listing` (listing.dfy) connects the store to the pages.
  - `JoinRows` is the query's LEFT JOIN, ordered by post id descending.
  - `ListPosts` is the grouping loop applied to that join.
  - On every valid store, `ListPosts` gives one view per stored post, newest first, each with exactly its own comments.

The bcrypt calls are parameters. The hash computed at signup arrives as an `Option<Digest>`, where `None` means hashing failed. Password checking is a predicate `verify` passed to `Login`.

## Model

| member | source | states |
|---|---|---|
| Grouping.Step | main.go:297-317 | One row always ends up in the current post, whose id becomes the row's. Finished posts are kept unchanged as a prefix. At most one post is finished, and one is finished exactly when the id changes and the previous post is not the id-0 marker. |
| Grouping.Fold | main.go:281-318 | Over any rows, the loop only appends to the finished posts. It holds at most one more post per row, and with no rows it changes nothing. |
| Grouping.FoldEndsOnLastRow | main.go:297-318 | After at least one row, the current post carries the last row's post id. |
| Grouping.Finish | main.go:320-323 | The statement after the loop keeps the finished posts as a prefix. It adds the current post exactly when its id is not 0. |
| Grouping.GroupRows | main.go:279-323 | There is at most one post per row, and none for no rows. |
| Grouping.GroupRowsEndsOnLastRow | main.go:297-323 | When the last row's id is not 0, the output ends with that row's post. |
| Grouping.GroupRowsIsReference | main.go:279-323 | For every row sequence, the loop's output equals one post per maximal run of equal post id, dropping runs with id 0. Each post takes its title, content and counts from the run's first row and its comments from all rows of the run. The last run is flushed too. |
| Grouping.StepInPlace | main.go:297-317 | The loop body as statements, updating `posts` and `currentPost` in place, performs exactly one iteration of the fold. |
| Grouping.GroupRowsLoop | main.go:376-413 | The imperative loop, with a mutable `posts` slice and `currentPost`, returns exactly the run-based reference. |
| Grouping.RunsPartition | main.go:297-310 | The runs concatenate back to the input rows. Every run has a single post id. Neighbouring runs have different ids, so a new post starts exactly where the id changes. |
| Grouping.Absorb | main.go:297-317 | Rows whose id equals the current post's id create no post; they only append their comments to the current post. |
| Grouping.FoldFlush | main.go:297-323 | Once the next row's id differs from the current post, the rest of the loop appends the current post (unless its id is 0) followed by one post per remaining run. |
| Grouping.CommentsOfAppend | main.go:311-317 | The comments collected from concatenated rows are the two groups' comments in input order, so each non-NULL comment row contributes exactly once, in order. |
| Grouping.NoZeroPost | main.go:297-323 | No output post has id 0, whatever the input. |
| Grouping.AllZeroRowsVanish | main.go:297-323 | If every row has post id 0, the output is empty: the 0 marker swallows those rows. |
| Grouping.NullCommentRowGivesEmptyPost | main.go:303-317 | A post whose only row has NULL comment columns comes out with an empty comment list and its fields taken from the row. No placeholder comment is added. |
| Grouping.CommentsHaveNoPostId | main.go:312-316 | Every comment in every post the loop returns has post id 0, because only ID and Content are set. |
| Grouping.SortedRowsGiveOnePostPerId | main.go:265-323 | With positive ids sorted descending, as the query orders them, the output has strictly decreasing ids. Its set of ids equals the set of row ids, so there is exactly one post per distinct id. |
| Grouping.UnsortedRowsSplitAPost | main.go:297-300 | Rows with ids 5, 3, 5 give three posts with ids 5, 3, 5: the loop only compares each row with the current post. |
| Grouping.CollectRows | main.go:281-294 | Scanning succeeds if and only if every row scans. On success, the rows are the scanned values in order. |
| Grouping.Aggregate | main.go:279-328 | A failed scan aborts the whole read. Otherwise the result is the run-based reference of the scanned rows. |
| Session.Split | main.go:252 | Splitting on a separator gives one more part than there are separators, and no part contains the separator. The empty value still gives one part. |
| Session.JoinSplit | main.go:252 | Joining the parts of a split with the separator rebuilds the original value. |
| Session.SplitJoin | main.go:252 | Splitting a join of separator-free parts gives back exactly those parts. |
| Session.IssueSession | main.go:211-216 | Login sets a cookie named `session` on path `/`. For every identity, separators in the fields included, its value is the username, the separator (a vertical bar), then the email. |
| Session.ClearSession | main.go:631-636 | Logout sets the `session` cookie to the empty value. |
| Session.Encode | main.go:213 | The login value is the username, then one separator, then the email, at fixed positions. |
| Session.EncodeOccurrences | main.go:213 | The login value holds exactly one separator more than the username and email together. |
| Session.EncodeSplits | main.go:213 | The login value (username, separator, email) splits into exactly `[username, email]` when neither field contains the separator. |
| Session.ReadSessionAsWritten | main.go:246-254 | The unchecked reader reports a missing cookie. It fails with an out-of-range index exactly when the value has no separator, and it succeeds exactly when a present value has at least one. A successful read returns two separator-free strings. Their encoding is a prefix of the cookie value, followed by the end of the value or by a separator, so they are the value's first two fields. |
| Session.ReadSession | main.go:252-254 | The checked reader succeeds if and only if the value has exactly one separator. The identity it returns re-encodes to exactly that value. Any other present value is refused as a malformed session, never read out of range. |
| Session.SessionRoundTrip | main.go:211-254 | Issuing a cookie and reading it back gives the original username and email when neither contains the separator. This holds for both readers. |
| Session.EmptySessionIndexesOutOfRange | main.go:252-254 | An empty session value makes the unchecked reader index out of range, and the checked reader reports a malformed session. A client that sends the header `session=` delivers that value. |
| Session.SeparatorInUsernameMisread | main.go:211-254 | The cookie login issues for username `a`, separator, `b` with email `e` is read back by the unchecked reader as username `a` and email `b`. The checked reader rejects it. |
| Store.EmptyForumValid | main.go:102-131 | The freshly created database satisfies the invariant, and every comment references a post. |
| Store.CountEmail | main.go:673-674 | The count of users with an email is 0 exactly when no user has that email. |
| Store.Signup | main.go:672-717 | A taken email is refused. A bcrypt failure is refused. Otherwise exactly one user, with the next id and the computed hash, is appended, and the next user id goes up by one. Nothing else changes and the invariant, including unique emails, is kept. |
| Store.SignupTwiceRefused | main.go:673-692 | A second signup with an email that just signed up is refused with "Email already taken". |
| Store.FindUser | main.go:226-236 | The email lookup finds nothing exactly when no user has the email; otherwise it returns a user with that email. |
| Store.Login | main.go:194-219 | An unknown email fails. A success implies a user with that email whose stored hash verifies the password, and the cookie carries that user's name and email. With unique emails, login succeeds if and only if such a user exists. |
| Store.UnknownEmailLooksLikeWrongPassword | main.go:197-207 | An unknown email and a wrong password produce the same failure. |
| Store.SignupThenLogin | main.go:194-216 | Right after signing up, login succeeds with the issued cookie exactly when the stored hash verifies the password. |
| Store.AliceSignsUp | main.go:700-717 | On an empty forum, `alice` is stored as user 1 with her hash. |
| Store.AliceLogsIn | main.go:194-216 | Alice logs in with her password and gets the cookie whose value is `alice`, separator, `alice@x.com`. A wrong password is refused. |
| Store.CreatePost | main.go:583-623 | The post is appended with both counters 0 and a fresh positive id. That id is the next post id, which then goes up by one, while the user and comment counters stay. An association is recorded if and only if the category value is non-empty. Users and comments are unchanged and the invariant is kept. |
| Store.AddComment | main.go:533-545 | Exactly one comment, for the given post id and content, is appended. Its id is the next comment id, which then goes up by one, while the user and post counters stay. All other tables are unchanged and the invariant is kept. |
| Store.AddCommentReference | main.go:533-545 | After a comment, every comment still references a post if and only if the commented post exists. Nothing prevents an orphan comment. |
| Store.BumpOne | main.go:465 | Only the chosen counter of the matching row goes up, by one. Id, title, content and the other counter stay the same. |
| Store.Bump | main.go:465 | The update keeps the number of posts. Each post is changed exactly as the single-row update says: only a row whose id matches gets its counter raised. |
| Store.Like | main.go:464-469 | Only the like counter of the post with the given id goes up, by one. Every other post and table is unchanged, as are the three id counters, and the invariant is kept. An unknown id changes nothing. |
| Store.Dislike | main.go:497-502 | Only the dislike counter of the post with the given id goes up, by one. Every other post and table is unchanged, as are the three id counters, and the invariant is kept. An unknown id changes nothing. |
| Store.Vote | main.go:464-469 | A like or dislike keeps the invariant and every id counter, and leaves the forum unchanged for an unknown id. |
| Store.LikeTimesAddsN | main.go:464-469 | n likes in a row raise that post's like counter by exactly n and change nothing else: other posts, other tables and the id counters stay as they were. |
| Store.LikeDislikeCommute | main.go:442-505 | A like and a dislike give the same forum in either order. |
| Listing.CommentsFor | main.go:268 | A post's joined comments are the stored comments whose post id matches, and no more of them than are stored. |
| Listing.CommentsForSnoc | main.go:268 | Storing one more comment appends it to its own post's joined comments and leaves every other post's comments as they were. The selection therefore keeps insertion order and lists each stored comment once. |
| Listing.RowsFor | main.go:265-270 | The LEFT JOIN gives every post at least one row, all carrying its id. |
| Listing.JoinRows | main.go:265-270 | The joined result is empty exactly when there are no posts, and it starts with the newest post. |
| Listing.ReferenceOfJoin | main.go:265-270 | Regrouping the joined rows gives back every stored post with exactly its comments, newest first. |
| Listing.ListPosts | main.go:265-323 | On a valid store, the page lists one view per stored post, newest first, each with exactly its own comments in insertion order. |
| Listing.GroupedJoinIsNewestFirst | main.go:279-323 | On a valid store, the handlers' loop over the join equals the newest-first list of post views. |
| Listing.ListPostsCountAndOrder | main.go:265-323 | N stored posts list as N entries with strictly decreasing ids. |
| Listing.HelloWorldScenario | main.go:583-598 | A post created on an empty forum without a category lists as post 1 with no comments and both counters 0. |
| Listing.NiceCommentScenario | main.go:533-540 | After a comment on that post, it lists with exactly that one comment. |
| Listing.Welcome | main.go:246-343 | The welcome page opens if and only if the cookie value has exactly one separator. It shows the identity that re-encodes to the cookie, together with the post listing. A present cookie that fails is refused as a malformed session. |
| Listing.ReadOnly | main.go:353-440 | The read-only page shows the same newest-first listing, one entry per stored post. |
| Listing.LoginThenWelcome | main.go:211-254 | The cookie a successful login issues opens the welcome page for the email that logged in, as long as the logged-in user's username and that email contain no separator. |

## Left out

- HTTP plumbing is not modelled: method checks, form parsing, redirects, status codes, templates, and the static pages (`landingPageHandler`, `servicePageHandler`, `contactPageHandler`, `successHandler`). None of it decides anything the model states.
- bcrypt is not modelled as a function. `Signup` receives the hash or its failure, and `Login` receives the verification predicate. No property of bcrypt is assumed.
- SQL execution, `sql.Open` per request, and prepared-statement errors are left out. Each statement is an atomic transition on `Forum`. Apart from row scanning (`Grouping.CollectRows`), I/O errors of the database are not modelled.
- The DDL declares the counters as `likes`/`dislikes` (main.go:119-120), while the queries use `like_count`/`dislike_count` (main.go:266, main.go:465). The model follows the queries' meaning and does not reproduce the mismatch.
- The `likes_dislikes` table and the `Likes`/`Dislikes` structs are declared but never written, so they are not modelled.
- The `post_category_associations` table is never created. Its insert can therefore fail after the post was stored, which would leave a post without its association. The model records the association whenever the category is non-empty and does not model that partial failure.
- Form values are strings, while ids are integers. SQLite's conversion of a `post_id` form string to an integer is not modelled; ids are `int` throughout.
- Integers are unbounded. Go's `int` and SQLite's INTEGER are 64-bit. At 2^63-1, `like_count + 1` (main.go:465, main.go:498) becomes a REAL that the integer scan (main.go:290) rejects, and AUTOINCREMENT refuses new rows once an id reaches that bound. Ids and counters here never overflow, and those failures are not modelled.
- Cookie expiry times depend on the wall clock and are not modelled.
- Foreign keys are not enforced by SQLite by default. `Store.AddCommentReference` states the consequence; the store does not reject orphan comments.
- The query does not order comments within one post. The model joins them in insertion order.
- Concurrency of counter updates is left to the database and is not modelled.
- script.js is not part of this model. It is browser-side DOM code.
- Session.SessionRoundTrip: the round trip is stated on the cookie value that main.go:213 builds. Go's `http.SetCookie` (main.go:217) sanitises that value before sending it. It drops bytes that are not valid in a cookie, such as `;`, `"`, a backslash, control characters and non-ASCII, and it quotes a value containing a space or a comma. That transport step and the browser are not modelled, so usernames or emails with such characters are not covered.
- Listing.LoginThenWelcome: stated at the same cookie-value level as `Session.SessionRoundTrip`, without `http.SetCookie`'s sanitising and quoting.
- Listing.Welcome: uses the checked reader `Session.ReadSession` rather than the unchecked one. The unchecked behaviour is modelled separately in `Session.ReadSessionAsWritten` (see Findings).
- Store.Login: promises "success if and only if a matching user verifies" only on stores with unique emails, the invariant `Valid` keeps. With duplicate emails the lookup takes the first match, as getUser's single-row query does.

## Findings

| source | as written | input that shows it | evidently intended | confidence | as-written member | corrected member |
|---|---|---|---|---|---|---|
| main.go:252-254 | The cookie value is split on the separator and `values[1]` is read without checking the number of parts. | A request whose Cookie header is `session=`, which gives the empty value: the split has one part, so `values[1]` is out of range. Any value without a separator does the same. Logout writes the empty value with an expiry in the past (main.go:631-636), so a conforming browser drops the cookie and sends none; that request fails earlier, at the missing-cookie check (main.go:247-250). The cookie login issues for a username made of `a`, separator, `b` (email `e`) is read back as username `a`, email `b`. | Read back exactly the username and email that login wrote, and reject any other value. | not executed | Session.ReadSessionAsWritten, Session.EmptySessionIndexesOutOfRange, Session.SeparatorInUsernameMisread | Session.ReadSession |

=== FILE: grouping.dfy ===
/** Regrouping of the flat `posts LEFT JOIN comments` result into posts with
    nested comments (welcomeHandler and readOnly in main.go; both handlers run
    the same loop, modelled once here).

    `GroupRows` is the loop as written: a left fold whose state is the list of
    finished posts plus the "current" post, with post id 0 meaning "no current
    post". `Reference` is an independent description: cut the rows into maximal
    runs of equal post id and turn every run whose id is not 0 into one post.
    `GroupRowsIsReference` proves the two agree on every input.
 */
module Grouping {
  import opened Wrappers

  /** One scanned row: posts.id, title, content, like_count, dislike_count,
      comments.id and comments.content (the last two are NULL when the post
      has no comment). */
  datatype Row = Row(
    postId: int,
    title: string,
    content: string,
    likeCount: int,
    dislikeCount: int,
    commentId: Option<int>,
    commentContent: Option<string>)

  /** The Comment view struct; the loop never sets `postId`, so it keeps
      Go's zero value 0. */
  datatype Comment = Comment(id: int, postId: int, content: string)

  /** The Post view struct; `categoryId` is never set by the loop. */
  datatype Post = Post(
    id: int,
    title: string,
    content: string,
    categoryId: int,
    comments: seq<Comment>,
    likeCount: int,
    dislikeCount: int)

  /** Go's zero value `Post{}`: its id 0 is the "no current post" marker. */
  const NoPost: Post := Post(0, "", "", 0, [], 0, 0)

  /** State of the loop: `done` is the `posts` slice, `current` is `currentPost`. */
  datatype Acc = Acc(done: seq<Post>, current: Post)

  /** Both joined comment columns are non-NULL. */
  predicate HasComment(row: Row) {
    row.commentId.Some? && row.commentContent.Some?
  }

  /** The comment a row contributes: only ID and Content are filled in. */
  function CommentOf(row: Row): (c: Comment)
    requires HasComment(row)
  {
    Comment(row.commentId.value, 0, row.commentContent.value)
  }

  /** The comments a row contributes, in a list of length 0 or 1. */
  function RowComments(row: Row): seq<Comment> {
    if HasComment(row) then [CommentOf(row)] else []
  }

  /** A fresh current post built from the first row of its group. */
  function StartPost(row: Row): Post {
    Post(row.postId, row.title, row.content, 0, [], row.likeCount, row.dislikeCount)
  }

  /** What appending a post to the result does, guarded by the id-0 check. */
  function Flushed(p: Post): (r: seq<Post>)
    ensures |r| <= 1
    ensures forall q | q in r :: q.id != 0
  {
    if p.id != 0 then [p] else []
  }

  /** Posts held by an accumulator, counting the current one unless it is the marker. */
  function Held(acc: Acc): nat {
    |acc.done| + if acc.current.id != 0 then 1 else 0
  }

  /** One iteration of the loop body: the row always becomes part of the
      current post, a finished post is never changed or dropped, and at most
      one post is finished, and only when the post id changes. */
  function Step(acc: Acc, row: Row): (r: Acc)
    ensures r.current.id == row.postId
    ensures acc.done <= r.done && |r.done| <= |acc.done| + 1
    ensures |r.done| == |acc.done| + 1 <==> acc.current.id != row.postId && acc.current.id != 0
    ensures Held(r) <= Held(acc) + 1
  {
    var changed := acc.current.id != row.postId;
    var done := if changed then acc.done + Flushed(acc.current) else acc.done;
    var cur := if changed then StartPost(row) else acc.current;
    Acc(done, cur.(comments := cur.comments + RowComments(row)))
  }

  /** The loop over all rows, first row first: it only appends to the
      finished posts and holds at most one more post per row. */
  function Fold(acc: Acc, rows: seq<Row>): (r: Acc)
    ensures acc.done <= r.done
    ensures Held(r) <= Held(acc) + |rows|
    ensures rows == [] ==> r == acc
    decreases |rows|
  {
    if rows == [] then acc else Fold(Step(acc, rows[0]), rows[1..])
  }

  /** After at least one row the current post is the last row's post. */
  lemma {:induction false} FoldEndsOnLastRow(acc: Acc, rows: seq<Row>)
    requires rows != []
    ensures Fold(acc, rows).current.id == rows[|rows| - 1].postId
    decreases |rows|
  {
    if |rows| > 1 {
      FoldEndsOnLastRow(Step(acc, rows[0]), rows[1..]);
    }
  }

  /** The statement after the loop: the last post is added to the finished
      ones exactly when it is not the marker. */
  function Finish(acc: Acc): (r: seq<Post>)
    ensures acc.done <= r && |r| == Held(acc)
    ensures |r| == |acc.done| + 1 <==> acc.current.id != 0
  {
    acc.done + Flushed(acc.current)
  }

  /** The whole aggregation as written in main.go: at most one post per row,
      and none for no rows. */
  function GroupRows(rows: seq<Row>): (r: seq<Post>)
    ensures |r| <= |rows|
    ensures rows == [] ==> r == []
  {
    Finish(Fold(Acc([], NoPost), rows))
  }

  /** The post of the last row always ends the list, unless that row has the
      marker id. */
  lemma GroupRowsEndsOnLastRow(rows: seq<Row>)
    requires rows != [] && rows[|rows| - 1].postId != 0
    ensures var r := GroupRows(rows); r != [] && r[|r| - 1].id == rows[|rows| - 1].postId
  {
    FoldEndsOnLastRow(Acc([], NoPost), rows);
  }

  // ---------------------------------------------------------------------------
  // Independent reference definition
  // ---------------------------------------------------------------------------

  /** The non-NULL comments of `rows`, in row order. */
  function CommentsOf(rows: seq<Row>): (cs: seq<Comment>)
    decreases |rows|
  {
    if rows == [] then [] else RowComments(rows[0]) + CommentsOf(rows[1..])
  }

  /** Length of the longest prefix of `rows` whose post id is `id`. */
  function LeadLen(rows: seq<Row>, id: int): (n: nat)
    ensures n <= |rows|
    ensures forall i | 0 <= i < n :: rows[i].postId == id
    ensures n < |rows| ==> rows[n].postId != id
    decreases |rows|
  {
    if rows == [] || rows[0].postId != id then 0 else 1 + LeadLen(rows[1..], id)
  }

  /** Every row of `run` carries the post id `id`. */
  predicate AllId(run: seq<Row>, id: int) {
    forall i | 0 <= i < |run| :: run[i].postId == id
  }

  /** Concatenation of a list of row lists. */
  function Concat(runs: seq<seq<Row>>): seq<Row> {
    if runs == [] then [] else runs[0] + Concat(runs[1..])
  }

  /** The rows cut into maximal runs of consecutive rows with equal post id
      (`RunsPartition` states what makes them runs). */
  function Runs(rows: seq<Row>): (runs: seq<seq<Row>>)
    ensures forall k | 0 <= k < |runs| :: |runs[k]| > 0
    decreases |rows|
  {
    if rows == [] then []
    else
      var n := LeadLen(rows, rows[0].postId);
      [rows[..n]] + Runs(rows[n..])
  }

  /** The first run is the longest prefix of rows with the first row's id. */
  lemma RunsHead(rows: seq<Row>)
    requires rows != []
    ensures var n := LeadLen(rows, rows[0].postId);
            && 0 < n
            && Runs(rows) == [rows[..n]] + Runs(rows[n..])
            && Runs(rows)[0][0] == rows[0]
  {
  }

  /** Concatenating a run in front of other runs. */
  lemma ConcatCons(run: seq<Row>, runs: seq<seq<Row>>)
    ensures Concat([run] + runs) == run + Concat(runs)
  {
    assert ([run] + runs)[1..] == runs;
  }

  /** The runs put back together give the rows. */
  lemma {:induction false} RunsConcat(rows: seq<Row>)
    ensures Concat(Runs(rows)) == rows
    decreases |rows|
  {
    if rows != [] {
      var n := LeadLen(rows, rows[0].postId);
      RunsHead(rows);
      RunsConcat(rows[n..]);
      ConcatCons(rows[..n], Runs(rows[n..]));
      assert rows[..n] + rows[n..] == rows;
    }
  }

  /** Every run has one post id. */
  lemma {:induction false} RunsOneId(rows: seq<Row>)
    ensures var runs := Runs(rows);
            forall k | 0 <= k < |runs| :: AllId(runs[k], runs[k][0].postId)
    decreases |rows|
  {
    if rows != [] {
      var n := LeadLen(rows, rows[0].postId);
      RunsHead(rows);
      RunsOneId(rows[n..]);
      var runs: seq<seq<Row>>, rest: seq<seq<Row>> := Runs(rows), Runs(rows[n..]);
      forall k | 0 <= k < |runs|
        ensures AllId(runs[k], runs[k][0].postId)
      {
        if k > 0 {
          assert runs[k] == rest[k - 1];
        }
      }
    }
  }

  /** Neighbouring runs have different post ids. */
  lemma {:induction false} RunsDiffer(rows: seq<Row>)
    ensures var runs := Runs(rows);
            forall k | 0 < k < |runs| :: runs[k - 1][0].postId != runs[k][0].postId
    decreases |rows|
  {
    if rows != [] {
      var n := LeadLen(rows, rows[0].postId);
      RunsHead(rows);
      RunsDiffer(rows[n..]);
      var runs: seq<seq<Row>>, rest: seq<seq<Row>> := Runs(rows), Runs(rows[n..]);
      if rest != [] {
        RunsHead(rows[n..]);
        assert rest[0][0] == rows[n];
      }
      forall k | 0 < k < |runs|
        ensures runs[k - 1][0].postId != runs[k][0].postId
      {
        if k > 1 {
          assert runs[k - 1] == rest[k - 2] && runs[k] == rest[k - 1];
        } else {
          assert runs[1] == rest[0];
        }
      }
    }
  }

  /** The runs put back together give the rows, every run has one post id,
      and neighbouring runs have different post ids. */
  lemma {:induction false} RunsPartition(rows: seq<Row>)
    ensures var runs := Runs(rows);
            && Concat(runs) == rows
            && (forall k | 0 <= k < |runs| :: AllId(runs[k], runs[k][0].postId))
            && (forall k | 0 < k < |runs| :: runs[k - 1][0].postId != runs[k][0].postId)
  {
    RunsConcat(rows);
    RunsOneId(rows);
    RunsDiffer(rows);
  }

  /** The post a run stands for: fields from its first row, comments from all
      of its rows. */
  function PostOf(run: seq<Row>): Post
    requires |run| > 0
  {
    StartPost(run[0]).(comments := CommentsOf(run))
  }

  /** One post per run, dropping runs whose post id is 0. */
  function PostsOfRuns(runs: seq<seq<Row>>): seq<Post>
    requires forall k | 0 <= k < |runs| :: |runs[k]| > 0
  {
    if runs == [] then [] else Flushed(PostOf(runs[0])) + PostsOfRuns(runs[1..])
  }

  /** What the aggregation is meant to compute. */
  function Reference(rows: seq<Row>): seq<Post> {
    PostsOfRuns(Runs(rows))
  }

  // ---------------------------------------------------------------------------
  // The loop computes the reference
  // ---------------------------------------------------------------------------

  /** Comments of a concatenation are the concatenation of the comments:
      a row's comment lands in input order and nowhere else. */
  lemma {:induction false} CommentsOfAppend(a: seq<Row>, b: seq<Row>)
    ensures CommentsOf(a + b) == CommentsOf(a) + CommentsOf(b)
    decreases |a|
  {
    if a == [] {
      assert a + b == b;
    } else {
      assert (a + b)[1..] == a[1..] + b;
      CommentsOfAppend(a[1..], b);
    }
  }

  /** One turn of the loop. */
  lemma FoldCons(acc: Acc, rows: seq<Row>)
    requires rows != []
    ensures Fold(acc, rows) == Fold(Step(acc, rows[0]), rows[1..])
  {
  }

  /** A row with the current post's id only adds its comment. */
  lemma StepSame(d: seq<Post>, c: Post, row: Row)
    requires row.postId == c.id
    ensures Step(Acc(d, c), row) == Acc(d, c.(comments := c.comments + RowComments(row)))
  {
  }

  /** A row of the current post's id, in front of any rows, only adds its comment. */
  lemma AbsorbOne(d: seq<Post>, c: Post, run: seq<Row>, rest: seq<Row>)
    requires run != [] && run[0].postId == c.id
    ensures Fold(Acc(d, c), run + rest)
         == Fold(Acc(d, c.(comments := c.comments + RowComments(run[0]))), run[1..] + rest)
  {
    var rows := run + rest;
    assert rows[0] == run[0] && rows[1..] == run[1..] + rest;
    FoldCons(Acc(d, c), rows);
    StepSame(d, c, run[0]);
  }

  /** The comments of a non-empty list of rows, after some earlier comments. */
  lemma CommentsOfCons(earlier: seq<Comment>, run: seq<Row>)
    requires run != []
    ensures earlier + RowComments(run[0]) + CommentsOf(run[1..]) == earlier + CommentsOf(run)
  {
    var head, tail := RowComments(run[0]), CommentsOf(run[1..]);
    assert CommentsOf(run) == head + tail;
    AppendAssoc(earlier, head, tail);
  }

  /** Appending is associative. */
  lemma AppendAssoc<T>(a: seq<T>, b: seq<T>, c: seq<T>)
    ensures a + b + c == a + (b + c)
  {
    assert |a + b + c| == |a + (b + c)|;
    forall i | 0 <= i < |a + b + c|
      ensures (a + b + c)[i] == (a + (b + c))[i]
    {
      if i < |a| {
      } else if i < |a| + |b| {
      } else {
      }
    }
  }

  /** Rows that continue the current post only add their comments to it. */
  lemma {:induction false} Absorb(d: seq<Post>, c: Post, run: seq<Row>, rest: seq<Row>)
    requires AllId(run, c.id)
    ensures Fold(Acc(d, c), run + rest)
         == Fold(Acc(d, c.(comments := c.comments + CommentsOf(run))), rest)
    decreases |run|
  {
    if run == [] {
      assert run + rest == rest;
      assert c.(comments := c.comments + CommentsOf(run)) == c;
    } else {
      var c' := c.(comments := c.comments + RowComments(run[0]));
      AbsorbOne(d, c, run, rest);
      Absorb(d, c', run[1..], rest);
      CommentsOfCons(c.comments, run);
    }
  }

  /** A run followed by rows of another id is cut at the run's end. */
  lemma ReferenceCons(rows: seq<Row>)
    requires |rows| > 0
    ensures var n := LeadLen(rows, rows[0].postId);
            0 < n && Reference(rows) == Flushed(PostOf(rows[..n])) + Reference(rows[n..])
  {
    var n := LeadLen(rows, rows[0].postId);
    var runs := Runs(rows);
    assert runs == [rows[..n]] + Runs(rows[n..]);
    assert runs[1..] == Runs(rows[n..]);
  }

  /** A row whose id differs from the current post flushes it and starts a new
      post from that row. */
  lemma FoldStart(d: seq<Post>, c: Post, rows: seq<Row>)
    requires |rows| > 0 && rows[0].postId != c.id
    ensures Fold(Acc(d, c), rows)
         == Fold(Acc(d + Flushed(c), StartPost(rows[0]).(comments := RowComments(rows[0]))), rows[1..])
  {
    FoldCons(Acc(d, c), rows);
    assert StartPost(rows[0]).comments + RowComments(rows[0]) == RowComments(rows[0]);
  }

  /** The post started by the first row of a run, after collecting the rest of
      the run, is the run's post. */
  lemma StartThenRest(run: seq<Row>)
    requires |run| > 0
    ensures var c0 := StartPost(run[0]).(comments := RowComments(run[0]));
            c0.(comments := c0.comments + CommentsOf(run[1..])) == PostOf(run)
  {
    assert run == [run[0]] + run[1..];
    CommentsOfAppend([run[0]], run[1..]);
    assert CommentsOf([run[0]]) == RowComments(run[0]);
  }

  /** A row whose id differs from the current post flushes it and starts a new
      post, which then collects the comments of the whole run. */
  lemma FoldRun(d: seq<Post>, c: Post, rows: seq<Row>, n: nat)
    requires 0 < n <= |rows| && rows[0].postId != c.id
    requires AllId(rows[..n], rows[0].postId)
    ensures Fold(Acc(d, c), rows) == Fold(Acc(d + Flushed(c), PostOf(rows[..n])), rows[n..])
  {
    var c0 := StartPost(rows[0]).(comments := RowComments(rows[0]));
    var d' := d + Flushed(c);
    var c1 := c0.(comments := c0.comments + CommentsOf(rows[1..n]));
    assert Fold(Acc(d, c), rows) == Fold(Acc(d', c0), rows[1..]) by {
      FoldStart(d, c, rows);
    }
    assert Fold(Acc(d', c0), rows[1..]) == Fold(Acc(d', c1), rows[n..]) by {
      assert rows[1..] == rows[1..n] + rows[n..];
      assert AllId(rows[1..n], c0.id);
      Absorb(d', c0, rows[1..n], rows[n..]);
    }
    assert c1 == PostOf(rows[..n]) by {
      assert rows[..n][1..] == rows[1..n];
      StartThenRest(rows[..n]);
    }
  }

  /** A block of rows of one id, followed by rows starting with another id,
      is exactly one run of the reference. */
  lemma {:induction false} LeadLenAppend(block: seq<Row>, rest: seq<Row>, id: int)
    requires AllId(block, id)
    requires rest == [] || rest[0].postId != id
    ensures LeadLen(block + rest, id) == |block|
    decreases |block|
  {
    if block == [] {
      assert block + rest == rest;
    } else {
      assert (block + rest)[1..] == block[1..] + rest;
      LeadLenAppend(block[1..], rest, id);
    }
  }

  lemma ReferenceAppendRun(block: seq<Row>, rest: seq<Row>)
    requires |block| > 0 && AllId(block, block[0].postId)
    requires rest == [] || rest[0].postId != block[0].postId
    ensures Reference(block + rest) == Flushed(PostOf(block)) + Reference(rest)
  {
    var rows := block + rest;
    LeadLenAppend(block, rest, block[0].postId);
    ReferenceCons(rows);
    assert rows[..|block|] == block && rows[|block|..] == rest;
  }

  /** Once the current post differs from the next row, the rest of the loop
      appends (the flushed current post and) one post per remaining run. */
  lemma {:induction false} FoldFlush(d: seq<Post>, c: Post, rows: seq<Row>)
    requires rows == [] || rows[0].postId != c.id
    ensures Finish(Fold(Acc(d, c), rows)) == d + Flushed(c) + Reference(rows)
    decreases |rows|
  {
    if rows == [] {
      assert Reference(rows) == [];
    } else {
      var p, rest := FoldFirstRun(d, c, rows);
      FoldFlush(d + Flushed(c), p, rest);
      AppendAssoc(d + Flushed(c), Flushed(p), Reference(rest));
    }
  }

  /** The first run of `rows`, which differs from the current post: the loop
      and the reference both turn it into the post `p` and go on with `rest`. */
  lemma FoldFirstRun(d: seq<Post>, c: Post, rows: seq<Row>) returns (p: Post, rest: seq<Row>)
    requires rows != [] && rows[0].postId != c.id
    ensures |rest| < |rows|
    ensures rest == [] || rest[0].postId != p.id
    ensures Fold(Acc(d, c), rows) == Fold(Acc(d + Flushed(c), p), rest)
    ensures Reference(rows) == Flushed(p) + Reference(rest)
  {
    var n := LeadLen(rows, rows[0].postId);
    ReferenceCons(rows);
    rest := rows[n..];
    assert AllId(rows[..n], rows[0].postId);
    p := PostOf(rows[..n]);
    FoldRun(d, c, rows, n);
  }

  /** Leading rows with post id 0 extend the marker post, which is then dropped. */
  lemma LeadingZeroRows(rows: seq<Row>)
    requires rows != [] && rows[0].postId == 0
    ensures GroupRows(rows) == Reference(rows)
  {
    var n := LeadLen(rows, 0);
    var c := NoPost.(comments := CommentsOf(rows[..n]));
    assert GroupRows(rows) == Finish(Fold(Acc([], c), rows[n..])) by {
      assert rows == rows[..n] + rows[n..];
      Absorb([], NoPost, rows[..n], rows[n..]);
    }
    assert Reference(rows) == Reference(rows[n..]) by {
      ReferenceCons(rows);
      assert Flushed(PostOf(rows[..n])) == [];
    }
    FoldFlush([], c, rows[n..]);
    assert [] + Flushed(c) + Reference(rows[n..]) == Reference(rows[n..]);
  }

  /** The loop as written computes exactly the run-based reference. */
  lemma GroupRowsIsReference(rows: seq<Row>)
    ensures GroupRows(rows) == Reference(rows)
  {
    if rows == [] {
    } else if rows[0].postId != 0 {
      FoldFlush([], NoPost, rows);
    } else {
      LeadingZeroRows(rows);
    }
  }

  /** The loop body of main.go as statements: flush the current post when the
      id changes (unless it is the marker), start a new one, then append the
      row's comment when both columns are non-NULL. It performs exactly one
      `Step`. */
  method StepInPlace(posts: seq<Post>, current: Post, row: Row) returns (posts': seq<Post>, current': Post)
    ensures Acc(posts', current') == Step(Acc(posts, current), row)
  {
    posts', current' := posts, current;
    if current'.id != row.postId {
      if current'.id != 0 {
        posts' := posts' + [current'];
      }
      current' := StartPost(row);
    }
    if HasComment(row) {
      current' := current'.(comments := current'.comments + [CommentOf(row)]);
    }
  }

  /** The aggregation loop with a mutable `posts` and `currentPost`, as the
      handlers run it. */
  method GroupRowsLoop(rows: seq<Row>) returns (posts: seq<Post>)
    ensures posts == Reference(rows)
  {
    posts := [];
    var current := NoPost;
    var i := 0;
    while i < |rows|
      invariant 0 <= i <= |rows|
      invariant Fold(Acc(posts, current), rows[i..]) == Fold(Acc([], NoPost), rows)
    {
      var row := rows[i];
      ghost var before := Acc(posts, current);
      posts, current := StepInPlace(posts, current, row);
      assert Fold(Acc(posts, current), rows[i + 1..]) == Fold(Acc([], NoPost), rows) by {
        FoldCons(before, rows[i..]);
        assert rows[i..][1..] == rows[i + 1..];
      }
      i := i + 1;
    }
    assert Acc(posts, current) == Fold(Acc([], NoPost), rows) by {
      assert rows[i..] == [];
    }
    if current.id != 0 {
      posts := posts + [current];
    }
    GroupRowsIsReference(rows);
  }

  // ---------------------------------------------------------------------------
  // Properties of the aggregation
  // ---------------------------------------------------------------------------

  /** Rows with post id 0 never produce a post: 0 is the marker, not an id. */
  lemma {:induction false} NoZeroPost(rows: seq<Row>)
    ensures forall p | p in GroupRows(rows) :: p.id != 0
  {
    GroupRowsIsReference(rows);
    PostsOfRunsNonZero(Runs(rows));
  }

  lemma {:induction false} PostsOfRunsNonZero(runs: seq<seq<Row>>)
    requires forall k | 0 <= k < |runs| :: |runs[k]| > 0
    ensures forall p | p in PostsOfRuns(runs) :: p.id != 0
    decreases |runs|
  {
    if runs != [] {
      PostsOfRunsNonZero(runs[1..]);
    }
  }

  /** A table whose rows all carry post id 0 aggregates to no posts at all. */
  lemma AllZeroRowsVanish(rows: seq<Row>)
    requires AllId(rows, 0)
    ensures GroupRows(rows) == []
  {
    GroupRowsIsReference(rows);
    if rows != [] {
      ReferenceCons(rows);
      assert LeadLen(rows, 0) == |rows|;
    }
  }

  /** A post with one joined row whose comment columns are NULL has an empty
      comment list, not a placeholder comment. */
  lemma NullCommentRowGivesEmptyPost(row: Row)
    requires row.postId != 0
    requires !HasComment(row)
    ensures GroupRows([row]) == [Post(row.postId, row.title, row.content, 0, [], row.likeCount, row.dislikeCount)]
  {
    assert [row][1..] == [];
    assert Step(Acc([], NoPost), row) == Acc([], StartPost(row));
    assert Fold(Acc([], NoPost), [row]) == Fold(Acc([], StartPost(row)), []);
  }

  /** Every comment in every post the loop returns has post id 0 (left unset). */
  lemma CommentsHaveNoPostId(rows: seq<Row>)
    ensures forall p, c | p in GroupRows(rows) && c in p.comments :: c.postId == 0
  {
    GroupRowsIsReference(rows);
    PostsOfRunsCommentsNoPostId(Runs(rows));
  }

  /** The same for the posts built from runs. */
  lemma {:induction false} PostsOfRunsCommentsNoPostId(runs: seq<seq<Row>>)
    requires forall k | 0 <= k < |runs| :: |runs[k]| > 0
    ensures forall p, c | p in PostsOfRuns(runs) && c in p.comments :: c.postId == 0
    decreases |runs|
  {
    if runs != [] {
      CollectedCommentsHaveNoPostId(runs[0]);
      PostsOfRunsCommentsNoPostId(runs[1..]);
    }
  }

  /** Every comment collected from rows has post id 0. */
  lemma {:induction false} CollectedCommentsHaveNoPostId(rows: seq<Row>)
    ensures forall c | c in CommentsOf(rows) :: c.postId == 0
    decreases |rows|
  {
    if rows != [] {
      CollectedCommentsHaveNoPostId(rows[1..]);
    }
  }

  /** Rows sorted by post id, highest first, as `ORDER BY posts.id DESC` delivers them. */
  predicate SortedDesc(rows: seq<Row>) {
    forall i, j | 0 <= i < j < |rows| :: rows[i].postId >= rows[j].postId
  }

  /** Every row carries a positive post id, as AUTOINCREMENT guarantees. */
  predicate PositiveIds(rows: seq<Row>) {
    forall i | 0 <= i < |rows| :: rows[i].postId > 0
  }

  /** The ids of a list of posts. */
  function PostIds(posts: seq<Post>): (ids: seq<int>)
    ensures |ids| == |posts|
    ensures forall k | 0 <= k < |posts| :: ids[k] == posts[k].id
  {
    if posts == [] then [] else [posts[0].id] + PostIds(posts[1..])
  }

  /** The ids of a list of rows. */
  function RowIds(rows: seq<Row>): (ids: set<int>)
    ensures forall i | 0 <= i < |rows| :: rows[i].postId in ids
    ensures forall id | id in ids :: exists i | 0 <= i < |rows| :: rows[i].postId == id
  {
    set i | 0 <= i < |rows| :: rows[i].postId
  }

  predicate StrictlyDecreasing(ids: seq<int>) {
    forall i, j | 0 <= i < j < |ids| :: ids[i] > ids[j]
  }

  /** The ids of a run followed by other rows. */
  lemma RowIdsSplit(rows: seq<Row>, n: nat)
    requires 0 < n <= |rows| && AllId(rows[..n], rows[0].postId)
    ensures RowIds(rows) == {rows[0].postId} + RowIds(rows[n..])
  {
    var rest := rows[n..];
    forall x | x in RowIds(rows)
      ensures x == rows[0].postId || x in RowIds(rest)
    {
      var i :| 0 <= i < |rows| && rows[i].postId == x;
      if i < n {
        assert rows[..n][i] == rows[i];
      } else {
        assert rest[i - n] == rows[i];
      }
    }
    forall x | x in RowIds(rest)
      ensures x in RowIds(rows)
    {
      var i :| 0 <= i < |rest| && rest[i].postId == x;
      assert rows[n + i] == rest[i];
    }
  }

  /** Putting a post with a larger id in front of strictly decreasing posts
      keeps them strictly decreasing. */
  lemma PostIdsCons(p: Post, tail: seq<Post>)
    requires StrictlyDecreasing(PostIds(tail))
    requires forall q | q in tail :: q.id < p.id
    ensures PostIds([p] + tail) == [p.id] + PostIds(tail)
    ensures StrictlyDecreasing(PostIds([p] + tail))
    ensures (set x | x in PostIds([p] + tail)) == {p.id} + (set x | x in PostIds(tail))
  {
    assert ([p] + tail)[1..] == tail;
    var ids := PostIds([p] + tail);
    forall i, j | 0 <= i < j < |ids|
      ensures ids[i] > ids[j]
    {
      if i == 0 {
        assert tail[j - 1] in tail;
      }
    }
  }

  /** On positive rows sorted by id descending, the reference yields one post
      per distinct id, in strictly decreasing id order, none above the first row. */
  lemma {:induction false} ReferenceSorted(rows: seq<Row>)
    requires PositiveIds(rows) && SortedDesc(rows)
    ensures StrictlyDecreasing(PostIds(Reference(rows)))
    ensures (set id | id in PostIds(Reference(rows))) == RowIds(rows)
    ensures forall p | p in Reference(rows) :: p.id <= rows[0].postId
    decreases |rows|
  {
    if rows == [] {
      assert Reference(rows) == [];
      assert RowIds(rows) == {};
    } else {
      var id := rows[0].postId;
      var n := LeadLen(rows, id);
      ReferenceCons(rows);
      SortedSuffix(rows, n);
      var rest := rows[n..];
      ReferenceSorted(rest);
      var p := PostOf(rows[..n]);
      var tail := Reference(rest);
      assert Reference(rows) == [p] + tail;
      PostIdsCons(p, tail);
      RowIdsSplit(rows, n);
    }
  }

  /** The rows after the first run are again positive and sorted, and start
      below the first run's id. */
  lemma SortedSuffix(rows: seq<Row>, n: nat)
    requires PositiveIds(rows) && SortedDesc(rows)
    requires |rows| > 0 && n == LeadLen(rows, rows[0].postId)
    ensures 0 < n && AllId(rows[..n], rows[0].postId)
    ensures PostOf(rows[..n]).id == rows[0].postId > 0
    ensures PositiveIds(rows[n..]) && SortedDesc(rows[n..])
    ensures rows[n..] != [] ==> rows[n..][0].postId < rows[0].postId
  {
  }

  /** The query's ordering makes the aggregation produce exactly one post per
      distinct post id, newest first, and the last group is not lost. */
  lemma SortedRowsGiveOnePostPerId(rows: seq<Row>)
    requires PositiveIds(rows) && SortedDesc(rows)
    ensures StrictlyDecreasing(PostIds(GroupRows(rows)))
    ensures (set id | id in PostIds(GroupRows(rows))) == RowIds(rows)
    ensures |GroupRows(rows)| == |RowIds(rows)|
  {
    GroupRowsIsReference(rows);
    ReferenceSorted(rows);
    DistinctCard(PostIds(GroupRows(rows)));
  }

  /** A strictly decreasing list has as many elements as its set of values. */
  lemma {:induction false} DistinctCard(ids: seq<int>)
    requires StrictlyDecreasing(ids)
    ensures |set x | x in ids| == |ids|
    decreases |ids|
  {
    if ids != [] {
      DistinctCard(ids[1..]);
      assert (set x | x in ids) == {ids[0]} + (set x | x in ids[1..]);
      assert ids[0] !in (set x | x in ids[1..]);
    }
  }

  /** Rows that are not sorted can split one post in two: the loop only
      compares each row with the current post. */
  lemma UnsortedRowsSplitAPost()
    ensures var r := Row(5, "t", "c", 0, 0, None, None);
            var s := Row(3, "u", "d", 0, 0, None, None);
            PostIds(GroupRows([r, s, r])) == [5, 3, 5]
  {
    var r := Row(5, "t", "c", 0, 0, None, None);
    var s := Row(3, "u", "d", 0, 0, None, None);
    var rows := [r, s, r];
    var p5, p3 := StartPost(r), StartPost(s);
    assert rows[1..] == [s, r] && rows[1..][1..] == [r] && rows[1..][1..][1..] == [];
    assert Fold(Acc([], NoPost), rows) == Fold(Acc([], p5), [s, r]);
    assert [s, r][1..] == [r] && [r][1..] == [];
    assert Step(Acc([], p5), s) == Acc([p5], p3);
    assert Fold(Acc([], p5), [s, r]) == Fold(Acc([p5], p3), [r]);
    assert Step(Acc([p5], p3), r) == Acc([p5, p3], p5);
    assert Fold(Acc([p5], p3), [r]) == Fold(Acc([p5, p3], p5), []);
    assert GroupRows(rows) == [p5, p3, p5];
  }

  // ---------------------------------------------------------------------------
  // Scan errors
  // ---------------------------------------------------------------------------

  /** A failed `rows.Scan` (or `rows.Err`) aborts the response. */
  datatype StorageError = StorageError

  /** The scanned rows, or the failure if any scan failed. */
  function CollectRows(scans: seq<Result<Row, StorageError>>): (r: Result<seq<Row>, StorageError>)
    ensures r.Success? <==> forall i | 0 <= i < |scans| :: scans[i].Success?
    ensures r.Success? ==> |r.value| == |scans|
    ensures r.Success? ==> forall i | 0 <= i < |scans| :: scans[i] == Success(r.value[i])
    decreases |scans|
  {
    if scans == [] then Success([])
    else match scans[0]
      case Failure(e) => Failure(e)
      case Success(row) =>
        match CollectRows(scans[1..])
        case Failure(e) => Failure(e)
        case Success(rest) => Success([row] + rest)
  }

  /** The handler's read path: every row must scan, then the rows are grouped. */
  function Aggregate(scans: seq<Result<Row, StorageError>>): (r: Result<seq<Post>, StorageError>)
    ensures r.Success? <==> forall i | 0 <= i < |scans| :: scans[i].Success?
    ensures r.Success? ==> r.value == Reference(CollectRows(scans).value)
  {
    match CollectRows(scans)
    case Failure(e) => Failure(e)
    case Success(rows) => GroupRowsIsReference(rows); Success(GroupRows(rows))
  }
}

=== FILE: listing.dfy ===
/** The read path of the forum (welcomeHandler and readOnly in main.go):
    the LEFT JOIN of posts with comments ordered by post id descending, fed to
    the row grouping. On every reachable store the result is one view per
    post, newest first, each with exactly that post's comments.
 */
module Listing {
  import opened Wrappers
  import opened Grouping
  import Store
  import Session

  /** The comments of post `id`, in insertion order. */
  function CommentsFor(comments: seq<Store.CommentRecord>, id: int): (cs: seq<Store.CommentRecord>)
    ensures forall c | c in cs :: c in comments && c.postId == id
    ensures forall c | c in comments && c.postId == id :: c in cs
    ensures |cs| <= |comments|
    decreases |comments|
  {
    if comments == [] then []
    else (if comments[0].postId == id then [comments[0]] else []) + CommentsFor(comments[1..], id)
  }

  /** Storing one more comment appends it to the comments of its own post
      and leaves every other post's comments as they were: the selection
      keeps insertion order and counts each stored comment once. */
  lemma {:induction false} CommentsForSnoc(comments: seq<Store.CommentRecord>, c: Store.CommentRecord, id: int)
    ensures CommentsFor(comments + [c], id)
         == CommentsFor(comments, id) + (if c.postId == id then [c] else [])
    decreases |comments|
  {
    var tail := if c.postId == id then [c] else [];
    if comments == [] {
      assert CommentsFor([c], id) == tail by {
        CommentsForUnfold([c], id);
        assert [c][1..] == [];
      }
      assert comments + [c] == [c];
    } else {
      var head := if comments[0].postId == id then [comments[0]] else [];
      var rest := CommentsFor(comments[1..], id);
      assert CommentsFor(comments + [c], id) == head + CommentsFor(comments[1..] + [c], id) by {
        CommentsForUnfold(comments + [c], id);
        assert (comments + [c])[1..] == comments[1..] + [c];
      }
      assert CommentsFor(comments[1..] + [c], id) == rest + tail by {
        CommentsForSnoc(comments[1..], c, id);
      }
      assert CommentsFor(comments, id) == head + rest by {
        CommentsForUnfold(comments, id);
      }
      AppendAssoc(head, rest, tail);
    }
  }

  /** One step of the selection. */
  lemma CommentsForUnfold(comments: seq<Store.CommentRecord>, id: int)
    requires comments != []
    ensures CommentsFor(comments, id)
         == (if comments[0].postId == id then [comments[0]] else []) + CommentsFor(comments[1..], id)
  {
  }

  /** The joined row of a post and one of its comments. */
  function JoinedRow(p: Store.PostRecord, c: Option<Store.CommentRecord>): Row {
    Row(p.id, p.title, p.content, p.likeCount, p.dislikeCount,
        if c.Some? then Some(c.value.id) else None,
        if c.Some? then Some(c.value.content) else None)
  }

  /** One joined row per comment. */
  function CommentRows(p: Store.PostRecord, cs: seq<Store.CommentRecord>): (rows: seq<Row>)
    ensures |rows| == |cs|
    ensures forall k | 0 <= k < |cs| :: rows[k] == JoinedRow(p, Some(cs[k]))
    decreases |cs|
  {
    if cs == [] then [] else [JoinedRow(p, Some(cs[0]))] + CommentRows(p, cs[1..])
  }

  /** The rows the LEFT JOIN yields for one post: one per comment, or a
      single row with NULL comment columns when it has none. */
  function RowsFor(p: Store.PostRecord, comments: seq<Store.CommentRecord>): (rows: seq<Row>)
    ensures |rows| > 0 && AllId(rows, p.id) && rows[0].postId == p.id
  {
    var cs := CommentsFor(comments, p.id);
    if cs == [] then [JoinedRow(p, None)] else CommentRows(p, cs)
  }

  /** The whole joined result, `ORDER BY posts.id DESC`: posts are stored in
      ascending id order, so the last post comes first. Comments of one post
      come in insertion order (the query does not order them). */
  function JoinRows(posts: seq<Store.PostRecord>, comments: seq<Store.CommentRecord>): (rows: seq<Row>)
    ensures posts == [] <==> rows == []
    ensures posts != [] ==> rows[0].postId == posts[|posts| - 1].id
    decreases |posts|
  {
    if posts == [] then []
    else RowsFor(posts[|posts| - 1], comments) + JoinRows(posts[..|posts| - 1], comments)
  }

  /** The view of a stored comment: id and content, post id left 0. */
  function ViewComments(cs: seq<Store.CommentRecord>): (vs: seq<Comment>)
    ensures |vs| == |cs|
    ensures forall k | 0 <= k < |cs| :: vs[k] == Comment(cs[k].id, 0, cs[k].content)
    decreases |cs|
  {
    if cs == [] then [] else [Comment(cs[0].id, 0, cs[0].content)] + ViewComments(cs[1..])
  }

  /** The view of a stored post with all of its comments. */
  function ViewOf(p: Store.PostRecord, comments: seq<Store.CommentRecord>): Post {
    Post(p.id, p.title, p.content, 0, ViewComments(CommentsFor(comments, p.id)), p.likeCount, p.dislikeCount)
  }

  /** The views of the stored posts, last stored first. */
  function NewestFirst(posts: seq<Store.PostRecord>, comments: seq<Store.CommentRecord>): (views: seq<Post>)
    ensures |views| == |posts|
    ensures forall k | 0 <= k < |posts| :: views[k].id == posts[|posts| - 1 - k].id
  {
    seq(|posts|, k requires 0 <= k < |posts| => ViewOf(posts[|posts| - 1 - k], comments))
  }

  /** The newest post's view comes first, then the views of the older posts. */
  lemma NewestFirstCons(posts: seq<Store.PostRecord>, comments: seq<Store.CommentRecord>)
    requires |posts| > 0
    ensures NewestFirst(posts, comments)
         == [ViewOf(posts[|posts| - 1], comments)] + NewestFirst(posts[..|posts| - 1], comments)
  {
    var init := posts[..|posts| - 1];
    var l, r := NewestFirst(posts, comments), [ViewOf(posts[|posts| - 1], comments)] + NewestFirst(init, comments);
    assert |l| == |r|;
    forall k | 0 <= k < |l| ensures l[k] == r[k] {
      if k > 0 {
        assert init[|init| - 1 - (k - 1)] == posts[|posts| - 1 - k];
      }
    }
  }

  // ---------------------------------------------------------------------------
  // The grouping recovers the store
  // ---------------------------------------------------------------------------

  lemma {:induction false} CommentsOfCommentRows(p: Store.PostRecord, cs: seq<Store.CommentRecord>)
    ensures CommentsOf(CommentRows(p, cs)) == ViewComments(cs)
    decreases |cs|
  {
    if cs != [] {
      var rows := CommentRows(p, cs);
      assert rows[1..] == CommentRows(p, cs[1..]);
      CommentsOfCommentRows(p, cs[1..]);
    }
  }

  /** Grouping the rows of one post gives that post's view. */
  lemma PostOfRowsFor(p: Store.PostRecord, comments: seq<Store.CommentRecord>)
    ensures PostOf(RowsFor(p, comments)) == ViewOf(p, comments)
  {
    var cs := CommentsFor(comments, p.id);
    if cs == [] {
      assert CommentsOf([JoinedRow(p, None)]) == [] + CommentsOf([]);
    } else {
      CommentsOfCommentRows(p, cs);
    }
  }

  /** The newest post's rows form the first run of the join and become its view. */
  lemma JoinStep(posts: seq<Store.PostRecord>, comments: seq<Store.CommentRecord>)
    requires |posts| > 0 && Store.PostIdsAscending(posts)
    ensures Store.PostIdsAscending(posts[..|posts| - 1])
    ensures Reference(JoinRows(posts, comments))
         == [ViewOf(posts[|posts| - 1], comments)] + Reference(JoinRows(posts[..|posts| - 1], comments))
  {
    var p, init := posts[|posts| - 1], posts[..|posts| - 1];
    var block, rest := RowsFor(p, comments), JoinRows(init, comments);
    assert JoinRows(posts, comments) == block + rest;
    assert rest == [] || rest[0].postId != block[0].postId by {
      if rest != [] {
        assert rest[0].postId == init[|init| - 1].id < p.id;
      }
    }
    assert Store.PostIdsAscending(init) by {
      assert forall i | 0 <= i < |init| :: init[i] == posts[i];
    }
    ReferenceAppendRun(block, rest);
    assert Flushed(PostOf(block)) == [ViewOf(p, comments)] by {
      PostOfRowsFor(p, comments);
    }
  }

  /** The reference grouping of the joined rows is the newest-first list of views. */
  lemma {:induction false} ReferenceOfJoin(posts: seq<Store.PostRecord>, comments: seq<Store.CommentRecord>)
    requires Store.PostIdsAscending(posts)
    ensures Reference(JoinRows(posts, comments)) == NewestFirst(posts, comments)
    decreases |posts|
  {
    if posts == [] {
      assert Reference([]) == [];
    } else {
      JoinStep(posts, comments);
      ReferenceOfJoin(posts[..|posts| - 1], comments);
      NewestFirstCons(posts, comments);
    }
  }

  /** The posts a page lists: the joined rows grouped by the handlers' loop.
      On a valid store this is one view per stored post, newest first, each
      carrying exactly its own comments in insertion order. */
  function ListPosts(f: Store.Forum): (r: seq<Post>)
    ensures Store.Valid(f) ==> r == NewestFirst(f.posts, f.comments)
  {
    GroupedJoinIsNewestFirst(f);
    GroupRows(JoinRows(f.posts, f.comments))
  }

  /** On a valid store the handlers' loop over the join gives the newest-first views. */
  lemma GroupedJoinIsNewestFirst(f: Store.Forum)
    ensures Store.Valid(f) ==> GroupRows(JoinRows(f.posts, f.comments)) == NewestFirst(f.posts, f.comments)
  {
    if Store.Valid(f) {
      GroupRowsIsReference(JoinRows(f.posts, f.comments));
      assert Store.PostIdsAscending(f.posts);
      ReferenceOfJoin(f.posts, f.comments);
    }
  }

  /** Views of ascending posts, newest first, have strictly decreasing ids. */
  lemma NewestFirstDecreasing(posts: seq<Store.PostRecord>, comments: seq<Store.CommentRecord>)
    requires Store.PostIdsAscending(posts)
    ensures StrictlyDecreasing(PostIds(NewestFirst(posts, comments)))
  {
    var views := NewestFirst(posts, comments);
    var ids := PostIds(views);
    forall i, j | 0 <= i < j < |ids|
      ensures ids[i] > ids[j]
    {
      assert ids[i] == posts[|posts| - 1 - i].id;
      assert ids[j] == posts[|posts| - 1 - j].id;
    }
  }

  /** N stored posts list as N entries in strictly descending id order. */
  lemma ListPostsCountAndOrder(f: Store.Forum)
    requires Store.Valid(f)
    ensures |ListPosts(f)| == |f.posts|
    ensures StrictlyDecreasing(PostIds(ListPosts(f)))
  {
    assert Store.PostIdsAscending(f.posts);
    NewestFirstDecreasing(f.posts, f.comments);
  }

  /** A valid store holding one post lists just that post's view. */
  lemma SinglePostListing(f: Store.Forum, p: Store.PostRecord)
    requires Store.Valid(f) && f.posts == [p]
    ensures ListPosts(f) == [ViewOf(p, f.comments)]
  {
    var views := NewestFirst(f.posts, f.comments);
    assert |views| == 1 && views[0] == ViewOf(p, f.comments);
  }

  /** Creating "Hello"/"World" without a category on an empty forum lists one
      post with no comments and both counters at 0. */
  lemma HelloWorldScenario()
    ensures ListPosts(Store.CreatePost(Store.EmptyForum, "Hello", "World", "").0)
         == [Post(1, "Hello", "World", 0, [], 0, 0)]
  {
    var f := Store.CreatePost(Store.EmptyForum, "Hello", "World", "").0;
    var p := Store.PostRecord(1, "Hello", "World", 0, 0);
    Store.EmptyForumValid();
    assert f.posts == [p] && f.comments == [];
    SinglePostListing(f, p);
    assert ViewComments(CommentsFor([], 1)) == [];
  }

  /** Commenting "nice!" on that post lists it with exactly that comment. */
  lemma NiceCommentScenario()
    ensures var f := Store.CreatePost(Store.EmptyForum, "Hello", "World", "").0;
            ListPosts(Store.AddComment(f, 1, "nice!"))
              == [Post(1, "Hello", "World", 0, [Comment(1, 0, "nice!")], 0, 0)]
  {
    var f := Store.CreatePost(Store.EmptyForum, "Hello", "World", "").0;
    var g := Store.AddComment(f, 1, "nice!");
    var p := Store.PostRecord(1, "Hello", "World", 0, 0);
    var c := Store.CommentRecord(1, "nice!", 1);
    Store.EmptyForumValid();
    assert g.posts == [p] && g.comments == [c];
    SinglePostListing(g, p);
    assert CommentsFor([c], 1) == [c] by {
      assert [c][1..] == [];
    }
    assert ViewComments([c]) == [Comment(1, 0, "nice!")];
  }

  // ---------------------------------------------------------------------------
  // Pages
  // ---------------------------------------------------------------------------

  /** What welcome.html is rendered with. */
  datatype WelcomePage = WelcomePage(username: string, email: string, posts: seq<Post>)

  /** welcomeHandler: read the session cookie (with the part count checked),
      then list the posts. */
  function Welcome(f: Store.Forum, cookie: Option<string>): (r: Result<WelcomePage, Session.SessionError>)
    ensures r.Success? <==> cookie.Some? && Session.Occurrences(cookie.value, Session.Delimiter) == 1
    ensures r.Success? ==> r.value.posts == ListPosts(f)
    ensures r.Success? ==> Session.Encode(r.value.username, r.value.email) == cookie.value
    ensures cookie.Some? && r.Failure? ==> r.error == Session.MalformedSession
  {
    match Session.ReadSession(cookie)
    case Failure(e) => Failure(e)
    case Success(id) => Success(WelcomePage(id.username, id.email, ListPosts(f)))
  }

  /** readOnly: the same listing, no session needed. */
  function ReadOnly(f: Store.Forum): (r: seq<Post>)
    ensures Store.Valid(f) ==> r == NewestFirst(f.posts, f.comments)
    ensures Store.Valid(f) ==> |r| == |f.posts|
  {
    ListPosts(f)
  }

  /** The cookie a login issues opens the welcome page for the user who logged
      in, as long as the stored username and email contain no '|'. */
  lemma LoginThenWelcome(f: Store.Forum, email: string, password: string, verify: (Store.Digest, string) -> bool)
    requires Store.Login(f, email, password, verify).Success?
    requires forall i | 0 <= i < |f.users| && f.users[i].email == email :: Session.Delimiter !in f.users[i].username
    requires Session.Delimiter !in email
    ensures var c := Store.Login(f, email, password, verify).value;
            && Welcome(f, Some(c.value)).Success?
            && Welcome(f, Some(c.value)).value.email == email
            && Welcome(f, Some(c.value)).value.posts == ListPosts(f)
  {
    var c := Store.Login(f, email, password, verify).value;
    var i :| 0 <= i < |f.users| && f.users[i].email == email
             && c == Session.IssueSession(Session.Identity(f.users[i].username, email));
    Session.SessionRoundTrip(Session.Identity(f.users[i].username, email));
  }
}

=== FILE: session.dfy ===
/** The session cookie (login and welcomeHandler in main.go).

    The cookie value is the username and the email joined by '|'; there is no
    signature and no server-side session table, so the value IS the session.
    Reading it splits the value on '|' with Go's `strings.Split` and takes
    parts 0 and 1.
 */
module Session {
  import opened Wrappers

  /** The separator between username and email. */
  const Delimiter: char := '|'

  /** Name and path of the cookie (expiry depends on the wall clock and is not modelled). */
  const CookieName: string := "session"
  const CookiePath: string := "/"

  datatype Cookie = Cookie(name: string, value: string, path: string)

  /** Who a session claims to be. */
  datatype Identity = Identity(username: string, email: string)

  datatype SessionError =
    | NoCookie           // r.Cookie("session") failed
    | IndexOutOfRange    // values[1] on a split with fewer than two parts (a Go panic)
    | MalformedSession   // rejected by the checked reader

  /** Number of occurrences of `c` in `s`. */
  function Occurrences(s: string, c: char): (k: nat)
    ensures k <= |s|
    ensures k == 0 <==> c !in s
    decreases |s|
  {
    if s == [] then 0 else (if s[0] == c then 1 else 0) + Occurrences(s[1..], c)
  }

  /** Go's `strings.Split(s, string(sep))`: the pieces between separators,
      always at least one piece (`Split("")` is `[""]`). */
  function Split(s: string, sep: char): (parts: seq<string>)
    ensures |parts| == Occurrences(s, sep) + 1
    ensures forall k | 0 <= k < |parts| :: sep !in parts[k]
    decreases |s|
  {
    if s == [] then [[]]
    else
      var rest := Split(s[1..], sep);
      if s[0] == sep then [[]] + rest
      else [[s[0]] + rest[0]] + rest[1..]
  }

  /** Go's `strings.Join(parts, string(sep))`. */
  function Join(parts: seq<string>, sep: char): (s: string)
    decreases |parts|
  {
    if |parts| == 0 then []
    else if |parts| == 1 then parts[0]
    else parts[0] + [sep] + Join(parts[1..], sep)
  }

  /** Separators in a concatenation are those of its two halves. */
  lemma {:induction false} OccurrencesAppend(a: string, b: string, c: char)
    ensures Occurrences(a + b, c) == Occurrences(a, c) + Occurrences(b, c)
    decreases |a|
  {
    if a == [] {
      assert a + b == b;
    } else {
      assert (a + b)[1..] == a[1..] + b;
      OccurrencesAppend(a[1..], b, c);
    }
  }

  /** The cookie value built at login: `fmt.Sprintf("%s|%s", username, email)`:
      the username, one separator, then the email. */
  function Encode(username: string, email: string): (v: string)
    ensures |v| == |username| + 1 + |email|
    ensures v[..|username|] == username && v[|username|] == Delimiter && v[|username| + 1..] == email
  {
    username + [Delimiter] + email
  }

  /** An encoded value holds one separator more than its two fields. */
  lemma EncodeOccurrences(username: string, email: string)
    ensures Occurrences(Encode(username, email), Delimiter)
         == Occurrences(username, Delimiter) + Occurrences(email, Delimiter) + 1
  {
    OccurrencesAppend(username, [Delimiter] + email, Delimiter);
    OccurrencesAppend([Delimiter], email, Delimiter);
    assert username + [Delimiter] + email == username + ([Delimiter] + email);
  }

  /** The cookie set by a successful login: its value is the encoding of the
      stored username and email, whatever characters they hold. */
  function IssueSession(id: Identity): (c: Cookie)
    ensures c.name == CookieName && c.path == CookiePath
    ensures c.value == Encode(id.username, id.email)
    ensures Delimiter in c.value
  {
    Cookie(CookieName, Encode(id.username, id.email), CookiePath)
  }

  /** The cookie set by logout: an empty value (and an expiry in the past). */
  function ClearSession(): (c: Cookie)
    ensures c.name == CookieName && c.value == []
  {
    Cookie(CookieName, [], CookiePath)
  }

  // ---------------------------------------------------------------------------
  // Split and Join are inverse
  // ---------------------------------------------------------------------------

  /** Joining a piece in front of a non-empty list puts a separator between. */
  lemma JoinCons(x: string, parts: seq<string>, sep: char)
    requires |parts| > 0
    ensures Join([x] + parts, sep) == x + [sep] + Join(parts, sep)
  {
    assert ([x] + parts)[1..] == parts;
  }

  /** Gluing a character onto the first piece glues it onto the join. */
  lemma JoinGlue(c: char, parts: seq<string>, sep: char)
    requires |parts| > 0
    ensures Join([[c] + parts[0]] + parts[1..], sep) == [c] + Join(parts, sep)
  {
    if |parts| > 1 {
      JoinCons([c] + parts[0], parts[1..], sep);
      JoinCons(parts[0], parts[1..], sep);
      assert [parts[0]] + parts[1..] == parts;
    }
  }

  /** Joining the pieces of a split gives back the original string. */
  lemma {:induction false} JoinSplit(s: string, sep: char)
    ensures Join(Split(s, sep), sep) == s
    decreases |s|
  {
    if s != [] {
      var rest := Split(s[1..], sep);
      JoinSplit(s[1..], sep);
      assert s == [s[0]] + s[1..];
      if s[0] == sep {
        JoinCons([], rest, sep);
      } else {
        JoinGlue(s[0], rest, sep);
      }
    }
  }

  /** A character other than the separator joins the first piece. */
  lemma SplitCons(c: char, u: string, sep: char)
    requires c != sep
    ensures Split([c] + u, sep) == [[c] + Split(u, sep)[0]] + Split(u, sep)[1..]
  {
    assert ([c] + u)[0] == c && ([c] + u)[1..] == u;
  }

  /** Gluing the first character of `a` back onto the first piece. */
  lemma GlueFirst(a: string, parts: seq<string>, r: seq<string>)
    requires a != [] && |parts| > 0
    requires r == [a[1..] + parts[0]] + parts[1..]
    ensures [[a[0]] + r[0]] + r[1..] == [a + parts[0]] + parts[1..]
  {
    assert r[1..] == parts[1..];
    assert [a[0]] + (a[1..] + parts[0]) == a + parts[0];
  }

  /** A separator-free prefix is glued onto the first piece of what follows. */
  lemma {:induction false} SplitPrefix(a: string, t: string, sep: char)
    requires sep !in a
    ensures Split(a + t, sep) == [a + Split(t, sep)[0]] + Split(t, sep)[1..]
    decreases |a|
  {
    if a == [] {
      var parts := Split(t, sep);
      assert a + t == t && a + parts[0] == parts[0];
      assert [parts[0]] + parts[1..] == parts;
    } else {
      var parts, r := Split(t, sep), Split(a[1..] + t, sep);
      SplitPrefix(a[1..], t, sep);
      SplitCons(a[0], a[1..] + t, sep);
      assert a + t == [a[0]] + (a[1..] + t);
      GlueFirst(a, parts, r);
    }
  }

  /** Splitting at a separator that follows a separator-free prefix. */
  lemma SplitAtSeparator(a: string, b: string, sep: char)
    requires sep !in a
    ensures Split(a + [sep] + b, sep) == [a] + Split(b, sep)
  {
    assert a + [sep] + b == a + ([sep] + b);
    SplitPrefix(a, [sep] + b, sep);
    assert ([sep] + b)[1..] == b;
    assert Split([sep] + b, sep) == [[]] + Split(b, sep);
    assert a + [] == a;
  }

  /** A string without separators splits into itself alone. */
  lemma SplitNoSeparator(a: string, sep: char)
    requires sep !in a
    ensures Split(a, sep) == [a]
  {
    assert a + [] == a;
    SplitPrefix(a, [], sep);
  }

  /** Splitting a join of separator-free pieces gives the pieces back. */
  lemma {:induction false} SplitJoin(parts: seq<string>, sep: char)
    requires |parts| > 0
    requires forall k | 0 <= k < |parts| :: sep !in parts[k]
    ensures Split(Join(parts, sep), sep) == parts
    decreases |parts|
  {
    if |parts| == 1 {
      SplitNoSeparator(parts[0], sep);
    } else {
      SplitJoin(parts[1..], sep);
      SplitAtSeparator(parts[0], Join(parts[1..], sep), sep);
      assert [parts[0]] + parts[1..] == parts;
    }
  }

  /** The login value splits into exactly the username and the email when
      neither contains the separator. */
  lemma EncodeSplits(username: string, email: string)
    requires Delimiter !in username && Delimiter !in email
    ensures Split(Encode(username, email), Delimiter) == [username, email]
  {
    SplitAtSeparator(username, email, Delimiter);
    SplitNoSeparator(email, Delimiter);
  }

  // ---------------------------------------------------------------------------
  // Reading the session
  // ---------------------------------------------------------------------------

  /** welcomeHandler as written: split on '|' and index parts 0 and 1 without
      checking how many parts there are. */
  function ReadSessionAsWritten(cookie: Option<string>): (r: Result<Identity, SessionError>)
    ensures cookie.None? ==> r == Failure(NoCookie)
    ensures r == Failure(IndexOutOfRange) <==> cookie.Some? && Delimiter !in cookie.value
    ensures r.Success? <==> cookie.Some? && Delimiter in cookie.value
    ensures r.Success? ==> Delimiter !in r.value.username && Delimiter !in r.value.email
    ensures r.Success? ==> Encode(r.value.username, r.value.email) <= cookie.value
    ensures r.Success? ==>
              var n := |Encode(r.value.username, r.value.email)|;
              n == |cookie.value| || cookie.value[n] == Delimiter
  {
    match cookie
    case None => Failure(NoCookie)
    case Some(v) =>
      var values := Split(v, Delimiter);
      if |values| < 2 then Failure(IndexOutOfRange)
      else
        JoinSplit(v, Delimiter);
        JoinLeadingPair(values, Delimiter);
        Success(Identity(values[0], values[1]))
  }

  /** The first two pieces, joined, are a prefix of the whole join, followed
      either by nothing or by a separator. */
  lemma JoinLeadingPair(parts: seq<string>, sep: char)
    requires |parts| >= 2
    ensures var p := parts[0] + [sep] + parts[1];
            var s := Join(parts, sep);
            p <= s && (|p| == |s| || s[|p|] == sep)
  {
    var p := parts[0] + [sep] + parts[1];
    var tail := parts[1..];
    assert Join(parts, sep) == parts[0] + [sep] + Join(tail, sep);
    if |parts| == 2 {
      assert Join(tail, sep) == parts[1];
    } else {
      assert Join(tail, sep) == parts[1] + [sep] + Join(tail[1..], sep);
      AppendSuffix(p, [sep] + Join(tail[1..], sep));
      assert parts[0] + [sep] + (parts[1] + [sep] + Join(tail[1..], sep)) == p + ([sep] + Join(tail[1..], sep));
    }
  }

  /** A string is a prefix of itself followed by anything. */
  lemma AppendSuffix(p: string, q: string)
    ensures p <= p + q && (q != [] ==> (p + q)[|p|] == q[0])
  {
  }

  /** The reader with the part count checked: a value must consist of exactly
      two parts. */
  function ReadSession(cookie: Option<string>): (r: Result<Identity, SessionError>)
    ensures cookie.None? <==> r == Failure(NoCookie)
    ensures r.Success? <==> cookie.Some? && Occurrences(cookie.value, Delimiter) == 1
    ensures r.Success? ==> Encode(r.value.username, r.value.email) == cookie.value
    ensures cookie.Some? && r.Failure? ==> r.error == MalformedSession
  {
    match cookie
    case None => Failure(NoCookie)
    case Some(v) =>
      var values := Split(v, Delimiter);
      if |values| != 2 then Failure(MalformedSession)
      else
        JoinSplit(v, Delimiter);
        assert values[1..] == [values[1]];
        Success(Identity(values[0], values[1]))
  }

  /** Issue then read: both readers return the identity the login put in,
      provided neither field contains the separator. */
  lemma SessionRoundTrip(id: Identity)
    requires Delimiter !in id.username && Delimiter !in id.email
    ensures ReadSession(Some(IssueSession(id).value)) == Success(id)
    ensures ReadSessionAsWritten(Some(IssueSession(id).value)) == Success(id)
  {
    EncodeSplits(id.username, id.email);
  }

  /** An empty session value makes the unchecked reader index out of range;
      the checked reader reports a malformed session instead. Logout writes
      this value, but with an expiry in the past, so a conforming client drops
      the cookie; the value reaches the handler from a client that sends
      `session=` itself. */
  lemma EmptySessionIndexesOutOfRange()
    ensures ReadSessionAsWritten(Some(ClearSession().value)) == Failure(IndexOutOfRange)
    ensures ReadSession(Some(ClearSession().value)) == Failure(MalformedSession)
  {
  }

  /** A username containing '|' (signup does not forbid one) is read back
      wrongly by the unchecked reader: the email's place is taken by the
      username's tail. The checked reader rejects the value. */
  lemma SeparatorInUsernameMisread()
    ensures ReadSessionAsWritten(Some(IssueSession(Identity("a|b", "e")).value)) == Success(Identity("a", "b"))
    ensures ReadSession(Some(IssueSession(Identity("a|b", "e")).value)) == Failure(MalformedSession)
  {
    assert "a|b" == "a" + [Delimiter] + "b";
    SplitThree("a", "b", "e");
  }

  /** A username with one separator inside, followed by an email, splits
      into three parts. */
  lemma SplitThree(a: string, b: string, e: string)
    requires Delimiter !in a && Delimiter !in b && Delimiter !in e
    ensures Split(Encode(a + [Delimiter] + b, e), Delimiter) == [a, b, e]
  {
    var tail := b + [Delimiter] + e;
    assert Encode(a + [Delimiter] + b, e) == a + [Delimiter] + tail;
    SplitAtSeparator(a, tail, Delimiter);
    EncodeSplits(b, e);
  }
}

=== FILE: store.dfy ===
/** The forum's persistent state and the handlers that change it (main.go:
    signupHandler, login/getUser, createPostHandler, commentHandler,
    likeHandler, dislikeHandler).

    Every handler runs one SQL statement (two for a post with a category); each
    is modelled as a pure transition from one `Forum` to the next that says
    what changes and that nothing else does. AUTOINCREMENT ids are counters
    starting at 1. bcrypt is not modelled: the hash computed at signup arrives
    as a parameter (None when hashing failed) and password verification is a
    predicate parameter of `Login`.
 */
module Store {
  import opened Wrappers
  import Session

  /** A stored bcrypt hash. */
  type Digest = string

  /** A row of the `user` table. */
  datatype User = User(id: int, username: string, email: string, passwordHash: Digest)

  /** A row of the `posts` table. */
  datatype PostRecord = PostRecord(id: int, title: string, content: string, likeCount: int, dislikeCount: int)

  /** A row of the `comments` table. */
  datatype CommentRecord = CommentRecord(id: int, content: string, postId: int)

  /** A row of `post_category_associations`; the category arrives as the raw form string. */
  datatype Association = Association(postId: int, categoryId: string)

  datatype Forum = Forum(
    users: seq<User>,
    posts: seq<PostRecord>,
    comments: seq<CommentRecord>,
    associations: seq<Association>,
    nextUserId: int,
    nextPostId: int,
    nextCommentId: int)

  /** The freshly created database: all tables empty, AUTOINCREMENT at 1. */
  const EmptyForum: Forum := Forum([], [], [], [], 1, 1, 1)

  // ---------------------------------------------------------------------------
  // Invariant
  // ---------------------------------------------------------------------------

  /** No two users share an email (the UNIQUE column of the `user` table). */
  predicate EmailsUnique(users: seq<User>) {
    forall i, j | 0 <= i < j < |users| :: users[i].email != users[j].email
  }

  /** Post ids are positive and ascending in insertion order, as AUTOINCREMENT makes them. */
  predicate PostIdsAscending(posts: seq<PostRecord>) {
    && (forall i | 0 <= i < |posts| :: 1 <= posts[i].id)
    && (forall i, j | 0 <= i < j < |posts| :: posts[i].id < posts[j].id)
  }

  /** Post ids are ascending and below the next id. */
  predicate PostIdsValid(posts: seq<PostRecord>, next: int) {
    && PostIdsAscending(posts)
    && (forall i | 0 <= i < |posts| :: posts[i].id < next)
  }

  /** Comment ids are positive, below the next id, and ascending. */
  predicate CommentIdsValid(comments: seq<CommentRecord>, next: int) {
    && (forall i | 0 <= i < |comments| :: 1 <= comments[i].id < next)
    && (forall i, j | 0 <= i < j < |comments| :: comments[i].id < comments[j].id)
  }

  /** User ids are positive, below the next id, and ascending. */
  predicate UserIdsValid(users: seq<User>, next: int) {
    && (forall i | 0 <= i < |users| :: 1 <= users[i].id < next)
    && (forall i, j | 0 <= i < j < |users| :: users[i].id < users[j].id)
  }

  /** What every reachable state satisfies. */
  predicate Valid(f: Forum) {
    && 1 <= f.nextUserId && 1 <= f.nextPostId && 1 <= f.nextCommentId
    && EmailsUnique(f.users)
    && UserIdsValid(f.users, f.nextUserId)
    && PostIdsValid(f.posts, f.nextPostId)
    && CommentIdsValid(f.comments, f.nextCommentId)
  }

  /** Some post has id `id`. */
  predicate HasPost(f: Forum, id: int) {
    exists i | 0 <= i < |f.posts| :: f.posts[i].id == id
  }

  /** Every comment points at an existing post (the declared foreign key). */
  predicate CommentsReferencePosts(f: Forum) {
    forall k | 0 <= k < |f.comments| :: HasPost(f, f.comments[k].postId)
  }

  lemma EmptyForumValid()
    ensures Valid(EmptyForum) && CommentsReferencePosts(EmptyForum)
  {
  }

  // ---------------------------------------------------------------------------
  // Signup and login
  // ---------------------------------------------------------------------------

  /** `SELECT COUNT(*) FROM user WHERE email = ?`. */
  function CountEmail(users: seq<User>, email: string): (n: nat)
    ensures n <= |users|
    ensures n == 0 <==> forall i | 0 <= i < |users| :: users[i].email != email
    decreases |users|
  {
    if users == [] then 0
    else (if users[0].email == email then 1 else 0) + CountEmail(users[1..], email)
  }

  datatype SignupError =
    | EmailTaken      // "Email already taken" re-rendered on the form
    | HashingFailed   // bcrypt.GenerateFromPassword returned an error

  /** signupHandler: refuse an email already present, else store the new user
      with the hash computed for its password. */
  function Signup(f: Forum, username: string, email: string, hashed: Option<Digest>): (r: Result<Forum, SignupError>)
    ensures r == Failure(EmailTaken) <==> exists i | 0 <= i < |f.users| :: f.users[i].email == email
    ensures r == Failure(HashingFailed) <==> CountEmail(f.users, email) == 0 && hashed.None?
    ensures r.Success? ==> hashed.Some?
    ensures r.Success? ==> r.value.users == f.users + [User(f.nextUserId, username, email, hashed.value)]
    ensures r.Success? ==> r.value.posts == f.posts && r.value.comments == f.comments
    ensures r.Success? ==> r.value.associations == f.associations
    ensures r.Success? ==> r.value.nextPostId == f.nextPostId && r.value.nextCommentId == f.nextCommentId
    ensures r.Success? ==> r.value.nextUserId == f.nextUserId + 1
    ensures r.Success? && Valid(f) ==> Valid(r.value)
  {
    if CountEmail(f.users, email) > 0 then Failure(EmailTaken)
    else match hashed
      case None => Failure(HashingFailed)
      case Some(h) =>
        var users := f.users + [User(f.nextUserId, username, email, h)];
        assert EmailsUnique(f.users) ==> EmailsUnique(users) by {
          assert forall i | 0 <= i < |f.users| :: users[i] == f.users[i];
        }
        Success(f.(users := users, nextUserId := f.nextUserId + 1))
  }

  /** getUser: the row `SELECT ... WHERE email = ?` returns, the first match. */
  function FindUser(users: seq<User>, email: string): (r: Option<User>)
    ensures r.None? <==> forall i | 0 <= i < |users| :: users[i].email != email
    ensures r.Some? ==> exists i | 0 <= i < |users| :: users[i] == r.value && r.value.email == email
    decreases |users|
  {
    if users == [] then None
    else if users[0].email == email then Some(users[0])
    else FindUser(users[1..], email)
  }

  /** The single answer the login form gets for a failed login: 401
      "Invalid email or password", whatever went wrong. */
  datatype LoginError = InvalidCredentials

  /** login: look the user up by email, check the password against the stored
      hash with `verify` (bcrypt.CompareHashAndPassword), and on success issue
      the session cookie from the stored username and email. */
  function Login(f: Forum, email: string, password: string, verify: (Digest, string) -> bool)
    : (r: Result<Session.Cookie, LoginError>)
    ensures (forall i | 0 <= i < |f.users| :: f.users[i].email != email) ==> r == Failure(InvalidCredentials)
    ensures r.Success? ==>
              exists i | 0 <= i < |f.users| ::
                && f.users[i].email == email
                && verify(f.users[i].passwordHash, password)
                && r.value == Session.IssueSession(Session.Identity(f.users[i].username, email))
    ensures EmailsUnique(f.users) ==>
              (r.Success? <==>
                 exists i | 0 <= i < |f.users| :: f.users[i].email == email && verify(f.users[i].passwordHash, password))
  {
    match FindUser(f.users, email)
    case None => Failure(InvalidCredentials)
    case Some(u) =>
      if !verify(u.passwordHash, password) then Failure(InvalidCredentials)
      else Success(Session.IssueSession(Session.Identity(u.username, u.email)))
  }

  /** An unknown email and a wrong password get the same answer, so a caller
      cannot tell which one happened. */
  lemma UnknownEmailLooksLikeWrongPassword(
    f: Forum, unknown: string, p1: string,
    g: Forum, known: string, p2: string,
    verify: (Digest, string) -> bool)
    requires forall i | 0 <= i < |f.users| :: f.users[i].email != unknown
    requires EmailsUnique(g.users)
    requires exists i | 0 <= i < |g.users| :: g.users[i].email == known && !verify(g.users[i].passwordHash, p2)
    ensures Login(f, unknown, p1, verify) == Login(g, known, p2, verify) == Failure(InvalidCredentials)
  {
  }

  /** A user who just signed up can log in with the password whose hash was
      stored, and gets the cookie for the username and email they gave; any
      password the hash does not verify is refused. */
  lemma SignupThenLogin(f: Forum, username: string, email: string, digest: Digest,
                        password: string, verify: (Digest, string) -> bool)
    requires Signup(f, username, email, Some(digest)).Success?
    ensures var g := Signup(f, username, email, Some(digest)).value;
            Login(g, email, password, verify)
              == if verify(digest, password)
                 then Success(Session.IssueSession(Session.Identity(username, email)))
                 else Failure(InvalidCredentials)
  {
    var g := Signup(f, username, email, Some(digest)).value;
    FindUserAppend(f.users, User(f.nextUserId, username, email, digest), email);
  }

  /** Looking up an email that only the appended user has finds that user. */
  lemma {:induction false} FindUserAppend(users: seq<User>, u: User, email: string)
    requires forall i | 0 <= i < |users| :: users[i].email != email
    requires u.email == email
    ensures FindUser(users + [u], email) == Some(u)
    decreases |users|
  {
    if users == [] {
      assert users + [u] == [u];
    } else {
      assert (users + [u])[1..] == users[1..] + [u];
      FindUserAppend(users[1..], u, email);
    }
  }

  /** The sign-up and login scenario: alice registers on an empty forum and
      is stored as user 1. */
  lemma AliceSignsUp(digest: Digest)
    ensures Signup(EmptyForum, "alice", "alice@x.com", Some(digest))
         == Success(EmptyForum.(users := [User(1, "alice", "alice@x.com", digest)], nextUserId := 2))
  {
    assert CountEmail([], "alice@x.com") == 0;
    assert [] + [User(1, "alice", "alice@x.com", digest)] == [User(1, "alice", "alice@x.com", digest)];
  }

  /** ... then she logs in with her password and is refused with another one. */
  lemma AliceLogsIn(verify: (Digest, string) -> bool, digest: Digest)
    requires verify(digest, "pw1") && !verify(digest, "wrongpw")
    ensures var g := EmptyForum.(users := [User(1, "alice", "alice@x.com", digest)], nextUserId := 2);
            && Login(g, "alice@x.com", "pw1", verify) == Success(Session.Cookie("session", "alice|alice@x.com", "/"))
            && Login(g, "alice@x.com", "wrongpw", verify) == Failure(InvalidCredentials)
  {
    assert Session.Encode("alice", "alice@x.com") == "alice|alice@x.com";
    AliceSignsUp(digest);
    SignupThenLogin(EmptyForum, "alice", "alice@x.com", digest, "pw1", verify);
    SignupThenLogin(EmptyForum, "alice", "alice@x.com", digest, "wrongpw", verify);
  }

  /** Signing up twice with one email stores one user. */
  lemma SignupTwiceRefused(f: Forum, u1: string, u2: string, email: string, h1: Digest, h2: Option<Digest>)
    requires Signup(f, u1, email, Some(h1)).Success?
    ensures Signup(Signup(f, u1, email, Some(h1)).value, u2, email, h2) == Failure(EmailTaken)
  {
    var g := Signup(f, u1, email, Some(h1)).value;
    assert g.users[|g.users| - 1].email == email;
  }

  // ---------------------------------------------------------------------------
  // Posts and comments
  // ---------------------------------------------------------------------------

  /** createPostHandler: insert the post with both counters at their default
      0, then record a category association only when the category form value
      is non-empty. Returns the new state and the post's id (LastInsertId). */
  function CreatePost(f: Forum, title: string, content: string, category: string): (r: (Forum, int))
    ensures r.0.posts == f.posts + [PostRecord(r.1, title, content, 0, 0)]
    ensures category == "" ==> r.0.associations == f.associations
    ensures category != "" ==> r.0.associations == f.associations + [Association(r.1, category)]
    ensures r.0.users == f.users && r.0.comments == f.comments
    ensures r.1 == f.nextPostId && r.0.nextPostId == r.1 + 1
    ensures r.0.nextUserId == f.nextUserId && r.0.nextCommentId == f.nextCommentId
    ensures Valid(f) ==> Valid(r.0) && !HasPost(f, r.1) && r.1 >= 1
  {
    var id := f.nextPostId;
    var g := f.(posts := f.posts + [PostRecord(id, title, content, 0, 0)], nextPostId := id + 1);
    (if category != "" then g.(associations := f.associations + [Association(id, category)]) else g, id)
  }

  /** commentHandler: insert the comment for `postId` without checking that
      the post exists. */
  function AddComment(f: Forum, postId: int, content: string): (r: Forum)
    ensures |r.comments| == |f.comments| + 1
    ensures r.comments[..|f.comments|] == f.comments
    ensures r.comments[|f.comments|].postId == postId && r.comments[|f.comments|].content == content
    ensures r.comments[|f.comments|].id == f.nextCommentId && r.nextCommentId == f.nextCommentId + 1
    ensures r.nextUserId == f.nextUserId && r.nextPostId == f.nextPostId
    ensures r.users == f.users && r.posts == f.posts && r.associations == f.associations
    ensures Valid(f) ==> Valid(r)
  {
    f.(comments := f.comments + [CommentRecord(f.nextCommentId, content, postId)],
       nextCommentId := f.nextCommentId + 1)
  }

  /** A comment keeps every comment pointing at a post exactly when its own
      post exists: nothing in the handler prevents an orphan. */
  lemma AddCommentReference(f: Forum, postId: int, content: string)
    requires CommentsReferencePosts(f)
    ensures CommentsReferencePosts(AddComment(f, postId, content)) <==> HasPost(f, postId)
  {
    var g := AddComment(f, postId, content);
    assert forall k | 0 <= k < |f.comments| :: g.comments[k] == f.comments[k];
    assert g.comments[|f.comments|].postId == postId;
  }

  // ---------------------------------------------------------------------------
  // Likes and dislikes
  // ---------------------------------------------------------------------------

  datatype Counter = LikeCounter | DislikeCounter

  /** The effect of the UPDATE on one row: the chosen counter of the post
      whose id matches goes up by one, every other row stays. */
  function BumpOne(p: PostRecord, postId: int, counter: Counter): (q: PostRecord)
    ensures q.id == p.id && q.title == p.title && q.content == p.content
    ensures q.likeCount == p.likeCount + (if p.id == postId && counter.LikeCounter? then 1 else 0)
    ensures q.dislikeCount == p.dislikeCount + (if p.id == postId && counter.DislikeCounter? then 1 else 0)
  {
    if p.id != postId then p
    else match counter
      case LikeCounter => p.(likeCount := p.likeCount + 1)
      case DislikeCounter => p.(dislikeCount := p.dislikeCount + 1)
  }

  /** `UPDATE posts SET <counter> = <counter> + 1 WHERE id = ?` over the post list. */
  function Bump(posts: seq<PostRecord>, postId: int, counter: Counter): (r: seq<PostRecord>)
    ensures |r| == |posts|
    ensures forall i | 0 <= i < |posts| :: r[i] == BumpOne(posts[i], postId, counter)
    decreases |posts|
  {
    if posts == [] then []
    else
      var rest := Bump(posts[1..], postId, counter);
      assert forall i | 1 <= i < |posts| :: posts[i] == posts[1..][i - 1];
      [BumpOne(posts[0], postId, counter)] + rest
  }

  /** likeHandler / dislikeHandler on the store. */
  function Vote(f: Forum, postId: int, counter: Counter): (r: Forum)
    ensures r.users == f.users && r.comments == f.comments && r.associations == f.associations
    ensures r.nextUserId == f.nextUserId && r.nextPostId == f.nextPostId && r.nextCommentId == f.nextCommentId
    ensures |r.posts| == |f.posts|
    ensures !HasPost(f, postId) ==> r == f
    ensures Valid(f) ==> Valid(r)
  {
    var r := f.(posts := Bump(f.posts, postId, counter));
    assert !HasPost(f, postId) ==> r.posts == f.posts by {
      if !HasPost(f, postId) {
        assert forall i | 0 <= i < |f.posts| :: r.posts[i] == f.posts[i];
      }
    }
    r
  }

  /** likeHandler: one more like on the post with the given id, nothing else. */
  function Like(f: Forum, postId: int): (r: Forum)
    ensures |r.posts| == |f.posts|
    ensures forall i | 0 <= i < |f.posts| ::
              r.posts[i] == if f.posts[i].id == postId
                            then f.posts[i].(likeCount := f.posts[i].likeCount + 1)
                            else f.posts[i]
    ensures r.users == f.users && r.comments == f.comments && r.associations == f.associations
    ensures r.nextUserId == f.nextUserId && r.nextPostId == f.nextPostId && r.nextCommentId == f.nextCommentId
    ensures !HasPost(f, postId) ==> r == f
    ensures Valid(f) ==> Valid(r)
  {
    Vote(f, postId, LikeCounter)
  }

  /** dislikeHandler: one more dislike on the post with the given id, nothing else. */
  function Dislike(f: Forum, postId: int): (r: Forum)
    ensures |r.posts| == |f.posts|
    ensures forall i | 0 <= i < |f.posts| ::
              r.posts[i] == if f.posts[i].id == postId
                            then f.posts[i].(dislikeCount := f.posts[i].dislikeCount + 1)
                            else f.posts[i]
    ensures r.users == f.users && r.comments == f.comments && r.associations == f.associations
    ensures r.nextUserId == f.nextUserId && r.nextPostId == f.nextPostId && r.nextCommentId == f.nextCommentId
    ensures !HasPost(f, postId) ==> r == f
    ensures Valid(f) ==> Valid(r)
  {
    Vote(f, postId, DislikeCounter)
  }

  /** `n` likes of the same post, one after another. */
  function LikeTimes(f: Forum, postId: int, n: nat): Forum
    decreases n
  {
    if n == 0 then f else Like(LikeTimes(f, postId, n - 1), postId)
  }

  /** `g` is `f` with `n` more likes on the post `postId` and nothing else changed. */
  predicate AddedLikes(f: Forum, g: Forum, postId: int, n: nat) {
    && |g.posts| == |f.posts|
    && g.users == f.users && g.comments == f.comments && g.associations == f.associations
    && g.nextUserId == f.nextUserId && g.nextPostId == f.nextPostId && g.nextCommentId == f.nextCommentId
    && forall i | 0 <= i < |f.posts| ::
         g.posts[i] == if f.posts[i].id == postId
                       then f.posts[i].(likeCount := f.posts[i].likeCount + n)
                       else f.posts[i]
  }

  /** One more like on top of `n` likes makes `n + 1`. */
  lemma OneMoreLike(f: Forum, h: Forum, postId: int, n: nat)
    requires AddedLikes(f, h, postId, n)
    ensures AddedLikes(f, Like(h, postId), postId, n + 1)
  {
    var g := Like(h, postId);
    forall i | 0 <= i < |f.posts|
      ensures g.posts[i] == if f.posts[i].id == postId
                            then f.posts[i].(likeCount := f.posts[i].likeCount + (n + 1))
                            else f.posts[i]
    {
      assert h.posts[i].id == f.posts[i].id;
    }
  }

  /** `n` sequential likes raise that post's like counter by exactly `n` and
      leave everything else as it was. */
  lemma {:induction false} LikeTimesAddsN(f: Forum, postId: int, n: nat)
    ensures AddedLikes(f, LikeTimes(f, postId, n), postId, n)
    decreases n
  {
    if n == 0 {
      assert forall i | 0 <= i < |f.posts| :: f.posts[i].(likeCount := f.posts[i].likeCount + 0) == f.posts[i];
    } else {
      LikeTimesAddsN(f, postId, n - 1);
      OneMoreLike(f, LikeTimes(f, postId, n - 1), postId, n - 1);
    }
  }

  /** On one row, a like and a dislike commute. */
  lemma BumpOneCommute(p: PostRecord, a: int, b: int)
    ensures BumpOne(BumpOne(p, b, DislikeCounter), a, LikeCounter)
         == BumpOne(BumpOne(p, a, LikeCounter), b, DislikeCounter)
  {
  }

  /** Over the post list, a like and a dislike commute. */
  lemma BumpCommute(posts: seq<PostRecord>, a: int, b: int)
    ensures Bump(Bump(posts, b, DislikeCounter), a, LikeCounter)
         == Bump(Bump(posts, a, LikeCounter), b, DislikeCounter)
  {
    var l := Bump(Bump(posts, b, DislikeCounter), a, LikeCounter);
    var r := Bump(Bump(posts, a, LikeCounter), b, DislikeCounter);
    forall i | 0 <= i < |posts|
      ensures l[i] == r[i]
    {
      BumpOneCommute(posts[i], a, b);
    }
  }

  /** A like and a dislike commute. */
  lemma LikeDislikeCommute(f: Forum, a: int, b: int)
    ensures Like(Dislike(f, b), a) == Dislike(Like(f, a), b)
  {
    BumpCommute(f.posts, a, b);
  }
}

=== FILE: wrappers.dfy ===
/** Failure-carrying datatypes shared by the forum model.
    - Option<T> stands for Go's nullable column values (sql.NullInt64, sql.NullString)
      and for lookups that may find nothing.
    - Result<T, E> stands for a Go `(value, error)` pair.
 */
module Wrappers {

  datatype Option<+T> = None | Some(value: T)

  datatype Result<+T, +E> = Success(value: T) | Failure(error: E)
}
